=== FILE: README.md ===
# Migration-window countdown, modelled in Dafny

The page this models shows a countdown to a fixed migration window
(opening 2025-09-23T16:00Z, closing 2025-09-30T16:00Z), a three-state pill
(OPENS IN / OPEN NOW / CLOSED), a progress bar while the window is open, and a
clock line in US Eastern time. All of it lives in the `CountdownTimer` class of
`script.js`. The model keeps the class's logic and leaves out the page
around it:

- `WindowState` (`window.dfy`): the window's two instants and `getCurrentState`
  as `Resolve`. Instants are integer epoch milliseconds, which is how a
  JavaScript `Date` compares and subtracts.
- `Countdown` (`countdown.dfy`): the time left per state and its split into
  days, hours, minutes and seconds (the arithmetic of `updateCountdown`).
- `Progress` (`progress.dfy`): the clamped elapsed percentage of
  `updateProgress`, as an exact `real`.
- `Decimal` (`decimal.dfy`): `toString` of a whole number and
  `padStart(2, '0')`, with their read-back round trips.
- `StateDisplay` (`statedisplay.dfy`): what `updateStateDisplay` writes for each
  state, and the description line of each state.
- `Ticker` (`ticker.dfy`): one countdown tick as a step function over an
  immutable record. The record holds `currentState` and `previousValues`; a
  card that was never written (`null` in the source) is absent from the map.
- `EasternClock` (`easternclock.dfy`): the simplified daylight-saving rule,
  the UTC offset and zone name, the 12-hour hour and the clock line of
  `updateCurrentTime` (`ClockLine`, built on the page's own daylight days).
  A corrected rule with the Sundays the page's comment names sits beside it
  (`EasternOf`, `ClockLineIntended`).
- `Options` (`options.dfy`): an optional value, for side effects that happen
  only on some ticks.

JavaScript's `Math.floor(a / b)` and `a % b` on the positive remaining time
agree with Dafny's `/` and `%`, and `Decompose` only uses them when the time
left is positive.

## Model

| member | source | states |
|---|---|---|
| WindowState.Resolve | script.js:82-92 | Before the opening instant the state is PreOpen; from the opening to the closing instant, both included, it is Open; otherwise it is Closed. Each case holds exactly when its condition does. |
| WindowState.ResolveClosedAfterClose | script.js:85-91 | For a window that opens before it closes, Closed holds exactly when `now` is after the closing instant. |
| WindowState.ResolveMonotone | script.js:85-91 | As time goes on the state only moves forward: PreOpen, then Open, then Closed. |
| WindowState.MigrationWindowValid | script.js:4-5 | The fixed window opens strictly before it closes. |
| Countdown.Remaining | script.js:104-125 | The time left is the distance to the opening instant before opening and to the closing instant while open; it is 0 once closed. When the state is that of `now`, it is never negative. Before opening it is positive. While open it is positive exactly until the closing instant, and 0 at that instant. |
| Countdown.Decompose | script.js:127-142 | With no time left, all four fields are 0. Otherwise hours < 24, minutes < 60 and seconds < 60, and the fields account for the remaining milliseconds to within less than one second. |
| Countdown.DecomposeUnique | script.js:128-131 | Any normal fields that account for a remaining time to within a second are exactly the fields the page computes, so the split is unique. |
| Countdown.DecomposeSpan | script.js:128-131 | Splitting the duration of normal fields gives the same fields back. |
| Countdown.DecomposeZeroIff | script.js:127-142 | The cards all read zero exactly when less than one second is left. |
| Countdown.CountdownAt | script.js:94-142 | The countdown at `now` is normal and all zero once closed. Before opening it accounts for the time to opening; while open it accounts for the time to closing. |
| Countdown.HourBeforeOpening | script.js:107-110 | One hour before opening the state is PreOpen and the cards read 0 days, 1 hour, 0 minutes and 0 seconds. |
| Countdown.ZeroAfterClose | script.js:121-124 | After the closing instant the state is Closed and the cards read all zeros. |
| Progress.Clamp | script.js:201 | `Math.min(Math.max(x, 0), 100)` lands in the range. It returns `x` when `x` is already inside and the nearer bound otherwise. |
| Progress.ClampMonotone | script.js:201 | Clamping preserves order. |
| Progress.Percentage | script.js:197-201 | The percentage is always in [0, 100]. It is 0 up to the opening instant and 100 from the closing instant on. |
| Progress.PercentageWhileOpen | script.js:199-201 | While open nothing is clamped: the percentage times the window length equals 100 times the elapsed time. |
| Progress.PercentageMonotone | script.js:199-201 | The percentage never decreases as `now` increases. |
| Progress.TwoDaysIn | script.js:199-201 | Two days into the seven-day window the state is Open and the percentage is 200/7. |
| Decimal.NatToString | script.js:146 | A number's decimal form is one or more digits, with no leading zero. It is a single digit exactly for numbers below 10. |
| Decimal.ParseNatToString | script.js:146 | Reading a number's decimal form back gives the number. |
| Decimal.NatToStringInjective | script.js:146 | Two numbers have the same decimal form exactly when they are equal. |
| Decimal.PadStart | script.js:146 | `padStart` gives `max(length, width)` characters, ends with the original string and is padded with the fill character in front. |
| Decimal.Pad2 | script.js:146 | A padded value has at least two digits: '0' and the digit for 0-9, and the plain decimal form from 10 on. |
| Decimal.Pad2RoundTrip | script.js:146 | Reading a padded value back gives the value. |
| Decimal.Pad2Injective | script.js:146-149 | Two values have the same padded text exactly when they are equal, so comparing texts is the same as comparing values. |
| StateDisplay.ViewOf | script.js:165-195 | PreOpen shows "OPENS IN", Open shows "OPEN NOW" and Closed shows "CLOSED". Progress and the call to action are shown exactly while open. The 'open' class is set exactly when open, 'closed' exactly when closed, and never both. |
| StateDisplay.PillTextIdentifiesState | script.js:174-194 | The pill text alone determines the state. |
| StateDisplay.Description | script.js:107-124 | Before opening the description starts with "Opens", naming the opening; while open it starts with "Closes", naming the closing. It names a time in Eastern time (ends in "ET") exactly while the window has not closed. |
| StateDisplay.DescriptionIdentifiesState | script.js:107-124 | The description line alone determines the state. |
| Ticker.WriteCard | script.js:145-162 | A card is rewritten exactly when it was never written or its last text differs. Afterwards the record holds the new text for that card and is unchanged for every other card. When nothing is rewritten the record is unchanged. |
| Ticker.WriteCardFiresIffChanged | script.js:145-161 | If a card last showed the padded form of `last`, writing the padded form of `value` rewrites it exactly when `last != value`. |
| Ticker.WriteCards | script.js:133-141 | Writing several cards in turn gives each listed card its text, leaves every other card's record alone, and rewrites exactly the listed cards whose text changed. |
| Ticker.WriteCardsRecordStable | script.js:145-161 | Writing the same texts a second time leaves the record unchanged. |
| Ticker.WriteCardsNoRewrite | script.js:145-161 | Writing the same texts a second time rewrites no card. |
| Ticker.CardsSettle | script.js:133-161 | Two passes over all four cards with the same texts: the second pass rewrites nothing and leaves the record as it was. |
| Ticker.Tick | script.js:94-142 | After a tick the carried state is the state of `now`. The state display updates exactly when that state differs from the one carried in, and with that state's view. The description is that state's. Progress is computed exactly while open. Its value is the clamped percentage of `now`, so it lies in [0, 100]. Every card holds the padded field of the countdown, and exactly the cards whose text changed are rewritten. |
| Ticker.TickIdempotent | script.js:99-102 | A second tick at the same instant makes no state display update and rewrites no card, and the carried state stays the same. |
| Ticker.FirstTick | script.js:22-23 | From the initial record (PreOpen, no card written) the first tick rewrites all four cards. It updates the state display exactly when the window has already opened. |
| Ticker.Run | script.js:205-214 | Repeated ticks at the given instants, counting state display updates; the count is at most one per tick. The carried state is in `Ticker.RunEndsInLastState`, the bound on updates in `Ticker.RunTransitionsBounded`. |
| Ticker.RunEndsInLastState | script.js:205-214 | A run of ticks ends carrying the state of its last instant, whatever the order of the instants; an empty run carries what it started with. |
| Ticker.RunTransitionsBounded | script.js:99-102 | Over ticks at non-decreasing instants, the carried state ends as the state of the last instant. The number of state display updates is at most the number of ranks the state advances. |
| Ticker.RunFromInitialAtMostTwoTransitions | script.js:23 | Starting from the initial record, ticks at non-decreasing instants update the state display at most twice. |
| EasternClock.DstStartDay | script.js:52-53 | The daylight-time start day is the 1st of March, plus `7 - weekday`, plus a week. It is always a Sunday between the 9th and the 15th. |
| EasternClock.DstEndDay | script.js:54-55 | The daylight-time end day is the 1st of November plus `7 - weekday`. It is always a Sunday between the 2nd and the 8th. |
| EasternClock.DstStartVersusSecondSunday | script.js:50-53 | The start day is the second Sunday of March exactly when March 1st is not a Sunday. Otherwise it is the third Sunday, one week after the second. |
| EasternClock.DstEndVersusFirstSunday | script.js:54-55 | The end day is the first Sunday of November exactly when November 1st is not a Sunday. Otherwise it is the second Sunday, one week after the first. |
| EasternClock.NthSundayUnique | script.js:50 | The reference "n-th Sunday of the month" names at most one day. |
| EasternClock.SecondSundayOfMarch | script.js:53 | The corrected start day is the second Sunday of March for every weekday of March 1st. |
| EasternClock.FirstSundayOfNovember | script.js:55 | The corrected end day is the first Sunday of November for every weekday of November 1st. |
| EasternClock.DstDaysOneWeekLate | script.js:52-55 | The page's days equal the intended Sundays, except exactly one week late when the month starts on a Sunday. |
| EasternClock.Year2026 | script.js:52-55 | For 2026, when both 1sts are Sundays, the page uses March 15th and November 8th where the comments promise March 8th and November 1st. |
| EasternClock.Eastern | script.js:46-59 | The zone is EDT exactly on the daylight range. The instant read is `now` moved to UTC and then 4 hours back for EDT or 5 for EST, so the zone name always matches the offset applied. |
| EasternClock.EasternAsWritten | script.js:50-58 | With the days the page computes, the zone is EDT exactly from local midnight of `DstStartDay` in March up to local midnight of `DstEndDay` in November. The instant is `now` moved to UTC and then 4 hours back for EDT or 5 for EST. |
| EasternClock.EasternOf | script.js:50 | This is the corrected rule that the comment names. With those days, the zone is EDT exactly from local midnight of the second Sunday of March up to local midnight of the first Sunday of November, and EST otherwise. |
| EasternClock.ReferenceDaylightAt | script.js:50-57 | Given the second Sunday of March and the first Sunday of November, the reference daylight range is exactly the span between their midnights. |
| EasternClock.AsWrittenAgreesOffSundays | script.js:50-57 | When neither March 1st nor November 1st is a Sunday, the page's clock reading equals the reference one at every instant. |
| EasternClock.AsWrittenLateInMarch | script.js:52-53 | In a year whose 1sts of March and November are Sundays, the page still shows EST at local midnight of March 8th. |
| EasternClock.ReferenceInMarch | script.js:50 | In such a year the corrected rule is already in EDT at local midnight of March 8th. |
| EasternClock.AsWrittenLateInNovember | script.js:54-55 | In such a year the page still shows EDT at local midnight of November 1st. |
| EasternClock.ReferenceInNovember | script.js:50 | In such a year the corrected rule is back in EST at local midnight of November 1st. |
| EasternClock.AsWrittenWrongOnSundayFirsts | script.js:50-57 | When both 1sts are Sundays, the page shows EST at midnight of March 8th and EDT at midnight of November 1st, where the reference rule gives EDT and EST. |
| EasternClock.ShiftedInstantOffsets | script.js:46-59 | The daylight reading is exactly one hour later than the standard one, and standard time is five hours behind UTC. |
| EasternClock.To12Hour | script.js:69-74 | The 12-hour hour is in 1..12 and PM holds exactly from hour 12. Hour 0 becomes 12 AM, hours 1-12 keep their number, and hours 13-23 become h − 12. |
| EasternClock.To12HourRoundTrip | script.js:69-74 | The 24-hour hour can be recovered from the 12-hour hour and AM/PM. |
| EasternClock.IntToString | script.js:77 | A year's text starts with '-' exactly when it is negative. After the sign come one or more digits without a leading zero, and they read back as the year's magnitude. |
| EasternClock.IntToStringInjective | script.js:77 | Two years have the same text exactly when they are equal. |
| EasternClock.ClockText | script.js:69-77 | The time of day has the layout `h:mm:ss AM`. The hour does not start with a zero, a ':' sits 9 and 6 characters from the end, and a space 3 from the end. It ends in "PM" exactly for hours from 12 on, else "AM". |
| EasternClock.ClockTextRoundTrip | script.js:69-77 | A reader that checks the separators and takes the hour, the padded minutes and seconds, and AM/PM from their places gives back the original 24-hour time. |
| EasternClock.FormatEastern | script.js:61-77 | The clock line starts with the three-letter weekday and ends with a space and the zone name. |
| EasternClock.ClockLine | script.js:43-78 | The page's clock line starts with the weekday and ends with the zone whose offset the page's rule applied. It ends in " EDT" exactly from local midnight of `DstStartDay` in March up to local midnight of `DstEndDay` in November, and in " EST" otherwise. |
| EasternClock.ClockLineIntended | script.js:50 | The clock line with the corrected rule ends in " EDT" exactly on the reference daylight range, from the second Sunday of March to the first Sunday of November. |
| EasternClock.ClockLinesAgreeOffSundays | script.js:50-77 | When neither 1st is a Sunday, the page's clock line equals the intended one at every instant. |
| EasternClock.ClockLineLateInMarch | script.js:52-53 | In a year whose 1sts of March and November are Sundays, at local midnight of March 8th the page's line ends " EST" where the intended line ends " EDT". |

## Left out

- DOM access (element lookup, `textContent`, styles, `classList`): the model produces the values written, as `StateView` and `TickOutput`.
- Timers and animation (`setInterval`, `setTimeout`, the flip animation's 300 ms and 600 ms delays): scheduling belongs to the host. A tick is one call of `Ticker.Tick`. The startup sequence calls `updateCountdown` twice in a row; `Ticker.TickIdempotent` covers that second call when both read the same instant.
- The clock is read three times per tick (script.js:83, 95, 198); the model uses a single `now` per tick.
- Host calendar conversions (`getTimezoneOffset`, `getFullYear`, `getDay`, `getMonth`, `getDate`, `getHours`, `getMinutes`, `getSeconds`, local-midnight construction) depend on the browser's time zone. The weekday of the 1st of March and November and the local-midnight instant of each day of March and November (`EasternClock.HostYear`), the host offset, and the broken-down fields of the shifted instant are inputs.
- Floating point: `Math.round` in the progress label and the CSS width string. The percentage is an exact `real`.
- Progress.Percentage: requires a window that opens before it closes. The source divides by the window's length, and its fixed window always satisfies this.
- Presentation glue: the call-to-action click handler, mouse parallax and fade-in observer (script.js:218-274).
- EasternClock.FormatEastern: states only the line's weekday prefix and zone suffix, not the month, date, year and time of day between them, because the line's middle has no fixed layout: the date and year vary in length. The pieces are covered on their own: the year by `EasternClock.IntToString`, the time of day by `EasternClock.ClockText` and `EasternClock.ClockTextRoundTrip`.
- EasternClock.ClockLine: built on `FormatEastern`, so it states the same prefix and suffix and leaves the middle of the line unstated, for the same reason.
- EasternClock.ClockLineIntended: likewise leaves the middle of the line unstated, for the same reason.

## Findings

| source | as written | input that shows it | evidently intended | confidence | as-written member | corrected member |
|---|---|---|---|---|---|---|
| script.js:52-53 | start day is `1 + (7 - wd) + 7` | March 1st a Sunday (2026): day 15, the third Sunday | the second Sunday of March (day 8 in 2026) | high; not executed | EasternClock.DstStartVersusSecondSunday | EasternClock.SecondSundayOfMarch |
| script.js:54-55 | end day is `1 + (7 - wd)` | November 1st a Sunday (2026): day 8, the second Sunday | the first Sunday of November (day 1 in 2026) | high; not executed | EasternClock.DstEndVersusFirstSunday | EasternClock.FirstSundayOfNovember |

The clock rule `EasternOf` uses the corrected days. `EasternAsWritten` keeps the page's days (`DstStartDay`, `DstEndDay`). `DstDaysOneWeekLate` relates the two sets of days on every input. `AsWrittenAgreesOffSundays` and `AsWrittenWrongOnSundayFirsts` show where the two clocks agree and where they differ, and `Year2026` gives the concrete dates. `ClockLine` writes the page's line, with the zone of `EasternAsWritten`. `ClockLineIntended` writes the corrected line, with the zone of `EasternOf`. `ClockLinesAgreeOffSundays` and `ClockLineLateInMarch` relate the two lines.

=== FILE: countdown.dfy ===
/** Countdown arithmetic: the time left until the next instant of interest,
    split into whole days, hours, minutes and seconds. */
module Countdown {
  import opened WindowState

  const MsPerSecond: int := 1000
  const MsPerMinute: int := 60 * MsPerSecond
  const MsPerHour: int := 60 * MsPerMinute
  const MsPerDay: int := 24 * MsPerHour

  /** The four numbers shown on the countdown cards. Days are not carried
      into any larger unit, so they may exceed 99. */
  datatype Fields = Fields(days: nat, hours: nat, minutes: nat, seconds: nat)

  const Zero: Fields := Fields(0, 0, 0, 0)

  /** Every field below the days stays below the size of the next unit. */
  predicate Normal(f: Fields) {
    f.hours < 24 && f.minutes < 60 && f.seconds < 60
  }

  /** The duration, in milliseconds, that a set of fields stands for. */
  function Span(f: Fields): int {
    f.days * MsPerDay + f.hours * MsPerHour + f.minutes * MsPerMinute + f.seconds * MsPerSecond
  }

  /** Time left in milliseconds for a given state: the distance from `now`
      to the opening instant before the window opens, to the closing instant
      while it is open, and nothing once it has closed. When `s` is the state
      of `now`, the time left before opening is positive and the time left
      while open is never negative; it is positive while open exactly until
      the closing instant. */
  function Remaining(s: State, now: int, w: Window): (r: int)
    ensures s == PreOpen ==> now + r == w.openAt
    ensures s == Open ==> now + r == w.closeAt
    ensures s == Closed ==> r == 0
    ensures s == Resolve(now, w) ==> r >= 0
    ensures s == Resolve(now, w) ==> (s == PreOpen <==> r > 0 && now < w.openAt)
    ensures s == Resolve(now, w) && s == Open ==> (r > 0 <==> now < w.closeAt)
  {
    match s
    case PreOpen => w.openAt - now
    case Open => w.closeAt - now
    case Closed => 0
  }

  /** A positive multiple of `d` is at least `d`. */
  lemma MulAtLeast(k: int, d: int)
    requires k >= 1 && d > 0
    ensures k * d >= d
  {
    assert k * d == (k - 1) * d + d;
  }

  /** A multiple of a positive `d` that lies above `-d` has a non-negative factor. */
  lemma NonNegativeFactor(k: int, d: int)
    requires d > 0 && k * d > -d
    ensures k >= 0
  {
    if k <= -1 {
      MulAtLeast(-k, d);
    }
  }

  /** Division with remainder is determined by its quotient and remainder. */
  lemma DivModUnique(a: int, d: int, q: int, m: int)
    requires d > 0 && 0 <= m < d
    requires a == q * d + m
    ensures a / d == q && a % d == m
  {
    var q' := a / d;
    assert (q - q') * d == a % d - m;
    NonNegativeFactor(q - q', d);
    NonNegativeFactor(q' - q, d);
  }

  /** Taking the remainder by a multiple of `d` first does not change the
      remainder by `d`. */
  lemma ModOfMultiple(a: int, d: int, k: int)
    requires d > 0 && k > 0
    ensures (a % (k * d)) % d == a % d
  {
    var r := a % (k * d);
    var q := a / (k * d);
    assert a == q * (k * d) + r;
    var b := r % d;
    var c := r / d;
    assert r == c * d + b;
    assert a == (q * k + c) * d + b;
    DivModUnique(a, d, q * k + c, b);
  }

  /** A remainder below `k * d`, divided by `d`, is below `k`. */
  lemma QuotientBelow(x: int, d: int, k: int)
    requires d > 0 && 0 <= x < k * d
    ensures 0 <= x / d < k
  {
    var q := x / d;
    assert q * d == x - x % d;
    NonNegativeFactor(q, d);
    assert (k - q - 1) * d == k * d - x + x % d - d;
    NonNegativeFactor(k - q - 1, d);
  }

  /** Fields that are not all zero stand for at least one second. */
  lemma SpanOfNonZero(f: Fields)
    ensures Span(f) >= 0
    ensures f != Zero ==> Span(f) >= MsPerSecond
  {
    if f.days > 0 {
      MulAtLeast(f.days, MsPerDay);
    }
    if f.hours > 0 {
      MulAtLeast(f.hours, MsPerHour);
    }
    if f.minutes > 0 {
      MulAtLeast(f.minutes, MsPerMinute);
    }
    if f.seconds > 0 {
      MulAtLeast(f.seconds, MsPerSecond);
    }
  }

  /** How the widget splits a remaining time into fields: nothing at all when
      no time is left; otherwise whole days, then the hours, minutes and
      seconds of what is left over, each truncated. The fields then account
      for the remaining time up to less than one second. */
  function Decompose(remaining: int): (f: Fields)
    ensures Normal(f)
    ensures remaining <= 0 ==> f == Zero
    ensures remaining > 0 ==> Span(f) <= remaining < Span(f) + MsPerSecond
  {
    if remaining > 0 then
      var f := Fields(remaining / MsPerDay,
                      (remaining % MsPerDay) / MsPerHour,
                      (remaining % MsPerHour) / MsPerMinute,
                      (remaining % MsPerMinute) / MsPerSecond);
      DecomposeAccounts(remaining);
      f
    else
      Zero
  }

  /** The fields computed from a positive remaining time are normal and
      account for it to within a second. */
  lemma DecomposeAccounts(r: int)
    requires r > 0
    ensures var f := Fields(r / MsPerDay, (r % MsPerDay) / MsPerHour,
                            (r % MsPerHour) / MsPerMinute, (r % MsPerMinute) / MsPerSecond);
            Normal(f) && Span(f) <= r < Span(f) + MsPerSecond
  {
    var rd := r % MsPerDay;
    var rh := r % MsPerHour;
    var rm := r % MsPerMinute;
    var rs := r % MsPerSecond;
    assert r == (r / MsPerDay) * MsPerDay + rd;
    QuotientBelow(rd, MsPerHour, 24);
    QuotientBelow(rh, MsPerMinute, 60);
    QuotientBelow(rm, MsPerSecond, 60);
    ModOfMultiple(r, MsPerHour, 24);
    ModOfMultiple(r, MsPerMinute, 60);
    ModOfMultiple(r, MsPerSecond, 60);
    assert rd == (rd / MsPerHour) * MsPerHour + rh;
    assert rh == (rh / MsPerMinute) * MsPerMinute + rm;
    assert rm == (rm / MsPerSecond) * MsPerSecond + rs;
  }

  /** The fields are the only normal ones that account for the remaining
      time to within a second: decomposing the span of any normal fields
      (plus less than a second) gives those fields back. */
  lemma DecomposeUnique(r: int, f: Fields)
    requires Normal(f)
    requires Span(f) <= r < Span(f) + MsPerSecond
    ensures Decompose(r) == f
  {
    var e := r - Span(f);
    if r <= 0 {
      SpanOfNonZero(f);
      return;
    }
    var sec := f.seconds * MsPerSecond + e;
    var min := f.minutes * MsPerMinute + sec;
    var hr := f.hours * MsPerHour + min;
    assert f.seconds * MsPerSecond <= 59 * MsPerSecond;
    assert f.minutes * MsPerMinute <= 59 * MsPerMinute;
    assert f.hours * MsPerHour <= 23 * MsPerHour;
    assert r == f.days * MsPerDay + hr;
    DivModUnique(r, MsPerDay, f.days, hr);
    DivModUnique(hr, MsPerHour, f.hours, min);
    ModOfMultiple(r, MsPerHour, 24);
    DivModUnique(min, MsPerMinute, f.minutes, sec);
    ModOfMultiple(r, MsPerMinute, 60);
    DivModUnique(sec, MsPerSecond, f.seconds, e);
    ModOfMultiple(r, MsPerSecond, 60);
  }

  /** Normal fields survive the round trip through their span. */
  lemma DecomposeSpan(f: Fields)
    requires Normal(f)
    ensures Decompose(Span(f)) == f
  {
    DecomposeUnique(Span(f), f);
  }

  /** The cards all read zero exactly when less than one second is left. */
  lemma DecomposeZeroIff(r: int)
    ensures Decompose(r) == Zero <==> r < MsPerSecond
  {
    if r >= MsPerSecond {
      SpanOfNonZero(Decompose(r));
    } else if r > 0 {
      DecomposeUnique(r, Zero);
    }
  }

  /** The countdown the widget shows at instant `now`. */
  function CountdownAt(now: int, w: Window): (f: Fields)
    ensures Normal(f)
    ensures Resolve(now, w) == Closed ==> f == Zero
    ensures Resolve(now, w) == PreOpen ==> Span(f) <= w.openAt - now < Span(f) + MsPerSecond
    ensures Resolve(now, w) == Open ==> Span(f) <= w.closeAt - now < Span(f) + MsPerSecond
  {
    Decompose(Remaining(Resolve(now, w), now, w))
  }

  /** One hour before the window opens, the cards read 0 days, 1 hour,
      0 minutes, 0 seconds. */
  lemma HourBeforeOpening()
    ensures Resolve(OpenDate - MsPerHour, MigrationWindow) == PreOpen
    ensures CountdownAt(OpenDate - MsPerHour, MigrationWindow) == Fields(0, 1, 0, 0)
  {
    DecomposeSpan(Fields(0, 1, 0, 0));
  }

  /** After the window has closed the cards read all zeros. */
  lemma ZeroAfterClose(now: int)
    requires now > CloseDate
    ensures Resolve(now, MigrationWindow) == Closed
    ensures CountdownAt(now, MigrationWindow) == Zero
  {
  }
}

=== FILE: decimal.dfy ===
/** Decimal rendering of whole numbers, as `Number.prototype.toString`
    writes a non-negative integer, and the two-character zero padding that
    `padStart(2, '0')` applies to it. */
module Decimal {

  predicate IsDigit(c: char) {
    '0' <= c <= '9'
  }

  predicate AllDigits(s: string) {
    forall i :: 0 <= i < |s| ==> IsDigit(s[i])
  }

  function DigitChar(d: nat): (c: char)
    requires d < 10
    ensures IsDigit(c)
  {
    ('0' as int + d) as char
  }

  function DigitValue(c: char): (d: nat)
    requires IsDigit(c)
    ensures d < 10 && DigitChar(d) == c
  {
    c as int - '0' as int
  }

  /** The shortest decimal numeral for `n`: only digits, never a leading
      zero unless the number is zero itself. */
  function NatToString(n: nat): (s: string)
    ensures |s| >= 1 && AllDigits(s)
    ensures |s| == 1 <==> n < 10
    ensures |s| > 1 ==> s[0] != '0'
    decreases n
  {
    if n < 10 then [DigitChar(n)]
    else NatToString(n / 10) + [DigitChar(n % 10)]
  }

  /** The value of a string of digits, read most significant digit first. */
  function Parse(s: string): nat
    requires AllDigits(s)
  {
    if |s| == 0 then 0
    else Parse(s[..|s| - 1]) * 10 + DigitValue(s[|s| - 1])
  }

  /** Reading back a rendered number gives the number. */
  lemma {:induction false} ParseNatToString(n: nat)
    ensures Parse(NatToString(n)) == n
    decreases n
  {
    var s := NatToString(n);
    if n >= 10 {
      assert s[..|s| - 1] == NatToString(n / 10);
      ParseNatToString(n / 10);
    }
  }

  /** Different numbers are rendered differently. */
  lemma NatToStringInjective(a: nat, b: nat)
    ensures NatToString(a) == NatToString(b) <==> a == b
  {
    if NatToString(a) == NatToString(b) {
      ParseNatToString(a);
      ParseNatToString(b);
    }
  }

  /** `s.padStart(width, fill)`: `s` with copies of `fill` put in front until
      it is `width` characters long; a string already that long is unchanged. */
  function PadStart(s: string, width: nat, fill: char): (r: string)
    ensures |r| == if |s| >= width then |s| else width
    ensures r[|r| - |s|..] == s
    ensures forall i :: 0 <= i < |r| - |s| ==> r[i] == fill
  {
    if |s| >= width then s else seq(width - |s|, _ => fill) + s
  }

  /** A countdown or clock number as shown: one-digit numbers get a leading
      zero, longer ones are their plain decimal numeral. */
  function Pad2(n: nat): (s: string)
    ensures |s| >= 2 && AllDigits(s)
    ensures n < 10 ==> s == ['0', DigitChar(n)]
    ensures n >= 10 ==> s == NatToString(n)
  {
    PadStart(NatToString(n), 2, '0')
  }

  /** Reading back a padded number gives the number: the leading zero is
      harmless. */
  lemma Pad2RoundTrip(n: nat)
    ensures Parse(Pad2(n)) == n
  {
    if n < 10 {
      var s := Pad2(n);
      assert s[..1] == ['0'];
      assert Parse(s[..1]) == 0 by {
        assert s[..1][..0] == [];
      }
    } else {
      ParseNatToString(n);
    }
  }

  /** Two numbers have the same padded form exactly when they are equal. */
  lemma Pad2Injective(a: nat, b: nat)
    ensures Pad2(a) == Pad2(b) <==> a == b
  {
    if Pad2(a) == Pad2(b) {
      Pad2RoundTrip(a);
      Pad2RoundTrip(b);
    }
  }
}

=== FILE: easternclock.dfy ===
/** The clock line: US Eastern time worked out by hand with a simplified
    daylight-saving rule, then written in 12-hour form. The browser's calendar
    (weekday of a date, local midnight, the broken-down fields of an instant)
    is not modelled; its answers are inputs here. */
module EasternClock {
  import opened Options
  import opened Decimal

  /** The weekday of day `day` of a month whose first day has weekday
      `firstWeekday`, numbered as `Date.getDay` does: 0 is Sunday. */
  function WeekdayOf(firstWeekday: int, day: int): (wd: int)
    requires 0 <= firstWeekday < 7 && day >= 1
    ensures 0 <= wd < 7
  {
    (firstWeekday + day - 1) % 7
  }

  /** Independent reference: `day` is the `n`-th Sunday of the month when it
      is a Sunday and exactly `n - 1` whole weeks of the month lie before it. */
  predicate IsNthSunday(firstWeekday: int, day: int, n: int)
    requires 0 <= firstWeekday < 7
  {
    day >= 1 && WeekdayOf(firstWeekday, day) == 0 && (day - 1) / 7 == n - 1
  }

  /** The day of March on which daylight time starts: from March 1st, forward
      by `7 - weekday` days and then one more week. It always lands on a
      Sunday between the 9th and the 15th. */
  function DstStartDay(marchFirstWeekday: int): (d: int)
    requires 0 <= marchFirstWeekday < 7
    ensures 9 <= d <= 15
    ensures WeekdayOf(marchFirstWeekday, d) == 0
  {
    1 + (7 - marchFirstWeekday) + 7
  }

  /** The day of November on which daylight time ends: from November 1st,
      forward by `7 - weekday` days. It always lands on a Sunday between the
      2nd and the 8th. */
  function DstEndDay(novemberFirstWeekday: int): (d: int)
    requires 0 <= novemberFirstWeekday < 7
    ensures 2 <= d <= 8
    ensures WeekdayOf(novemberFirstWeekday, d) == 0
  {
    1 + (7 - novemberFirstWeekday)
  }

  /** The start day is the second Sunday of March exactly when March 1st is
      not a Sunday; when it is, the rule picks the third Sunday, one week
      after the second. */
  lemma DstStartVersusSecondSunday(marchFirstWeekday: int)
    requires 0 <= marchFirstWeekday < 7
    ensures IsNthSunday(marchFirstWeekday, DstStartDay(marchFirstWeekday), 2) <==> marchFirstWeekday != 0
    ensures marchFirstWeekday == 0 ==>
              IsNthSunday(marchFirstWeekday, DstStartDay(marchFirstWeekday), 3) &&
              IsNthSunday(marchFirstWeekday, DstStartDay(marchFirstWeekday) - 7, 2)
  {
    var d := DstStartDay(marchFirstWeekday);
    assert (d - 1) / 7 == if marchFirstWeekday == 0 then 2 else 1;
    if marchFirstWeekday == 0 {
      assert WeekdayOf(0, d - 7) == 0;
    }
  }

  /** The end day is the first Sunday of November exactly when November 1st
      is not a Sunday; when it is, the rule picks the second Sunday, one week
      after the first. */
  lemma DstEndVersusFirstSunday(novemberFirstWeekday: int)
    requires 0 <= novemberFirstWeekday < 7
    ensures IsNthSunday(novemberFirstWeekday, DstEndDay(novemberFirstWeekday), 1) <==> novemberFirstWeekday != 0
    ensures novemberFirstWeekday == 0 ==>
              IsNthSunday(novemberFirstWeekday, DstEndDay(novemberFirstWeekday), 2) &&
              IsNthSunday(novemberFirstWeekday, DstEndDay(novemberFirstWeekday) - 7, 1)
  {
    var d := DstEndDay(novemberFirstWeekday);
    assert (d - 1) / 7 == if novemberFirstWeekday == 0 then 1 else 0;
    if novemberFirstWeekday == 0 {
      assert WeekdayOf(0, d - 7) == 0;
    }
  }

  /** Two days of the same month that are both its `n`-th Sunday are the
      same day: the reference picks one day. */
  lemma NthSundayUnique(firstWeekday: int, d1: int, d2: int, n: int)
    requires 0 <= firstWeekday < 7
    requires IsNthSunday(firstWeekday, d1, n) && IsNthSunday(firstWeekday, d2, n)
    ensures d1 == d2
  {
    var k := (d1 - 1) / 7;
    assert d1 - 1 == 7 * k + (d1 - 1) % 7;
    assert d2 - 1 == 7 * k + (d2 - 1) % 7;
    assert (firstWeekday + (d1 - 1) % 7) % 7 == 0;
    assert (firstWeekday + (d2 - 1) % 7) % 7 == 0;
  }

  /** The second Sunday of March, which the rule's comment names: the first
      Sunday is `(7 - weekday) % 7` days after March 1st. */
  function SecondSundayOfMarch(marchFirstWeekday: int): (d: int)
    requires 0 <= marchFirstWeekday < 7
    ensures IsNthSunday(marchFirstWeekday, d, 2)
  {
    1 + (7 - marchFirstWeekday) % 7 + 7
  }

  /** The first Sunday of November, which the rule's comment names. */
  function FirstSundayOfNovember(novemberFirstWeekday: int): (d: int)
    requires 0 <= novemberFirstWeekday < 7
    ensures IsNthSunday(novemberFirstWeekday, d, 1)
  {
    1 + (7 - novemberFirstWeekday) % 7
  }

  /** The page's start and end days are the intended Sundays, except one
      week late when the month begins on a Sunday. */
  lemma DstDaysOneWeekLate(marchFirstWeekday: int, novemberFirstWeekday: int)
    requires 0 <= marchFirstWeekday < 7 && 0 <= novemberFirstWeekday < 7
    ensures DstStartDay(marchFirstWeekday) ==
              SecondSundayOfMarch(marchFirstWeekday) + (if marchFirstWeekday == 0 then 7 else 0)
    ensures DstEndDay(novemberFirstWeekday) ==
              FirstSundayOfNovember(novemberFirstWeekday) + (if novemberFirstWeekday == 0 then 7 else 0)
  {
    SundayGap(marchFirstWeekday);
    SundayGap(novemberFirstWeekday);
  }

  /** The days from the 1st to the first Sunday: `7 - weekday` when the 1st is
      not a Sunday, and none when it is. */
  lemma SundayGap(firstWeekday: int)
    requires 0 <= firstWeekday < 7
    ensures (7 - firstWeekday) % 7 == if firstWeekday == 0 then 0 else 7 - firstWeekday
  {
    if firstWeekday != 0 {
      assert 0 < 7 - firstWeekday < 7;
    }
  }

  /** In 2026 both March 1st and November 1st fall on a Sunday: the page
      starts daylight time on March 15th instead of March 8th and ends it on
      November 8th instead of November 1st. */
  lemma Year2026()
    ensures DstStartDay(0) == 15 && SecondSundayOfMarch(0) == 8
    ensures DstEndDay(0) == 8 && FirstSundayOfNovember(0) == 1
  {
    SundayGap(0);
  }

  /** Daylight time is in effect from the start instant (included) up to the
      end instant (excluded). The two instants are the host's local midnights
      at the start and end days. */
  predicate IsDst(now: int, startAt: int, endAt: int) {
    now >= startAt && now < endAt
  }

  /** The offset from UTC in hours: four hours behind in daylight time,
      five otherwise. */
  function OffsetHours(dst: bool): int {
    if dst then -4 else -5
  }

  function ZoneName(dst: bool): string {
    if dst then "EDT" else "EST"
  }

  /** The instant whose host-local reading is Eastern time: `now` moved to UTC
      by the host's offset (in minutes, as `getTimezoneOffset` gives it) and
      then by the Eastern offset. */
  function ShiftedInstant(now: int, hostOffsetMinutes: int, dst: bool): int {
    now + hostOffsetMinutes * 60000 + OffsetHours(dst) * 3600000
  }

  /** Daylight time shows the clock exactly one hour later than standard
      time, and standard time is five hours behind UTC. */
  lemma ShiftedInstantOffsets(now: int, hostOffsetMinutes: int)
    ensures ShiftedInstant(now, hostOffsetMinutes, true) - ShiftedInstant(now, hostOffsetMinutes, false) == 3600000
    ensures (now + hostOffsetMinutes * 60000) - ShiftedInstant(now, hostOffsetMinutes, false) == 5 * 3600000
  {
  }

  /** The instant to read the Eastern clock from, with the zone it is in. */
  datatype EasternTime = EasternTime(instant: int, zone: string)

  /** The clock rule for one reading: daylight time exactly on the half-open
      range from the start midnight to the end midnight, and the zone written
      always agrees with the offset applied (EDT with four hours behind UTC,
      EST with five). */
  function Eastern(now: int, hostOffsetMinutes: int, startAt: int, endAt: int): (e: EasternTime)
    ensures e.zone == "EDT" <==> startAt <= now < endAt
    ensures e.zone == "EDT" || e.zone == "EST"
    ensures e.zone == "EDT" ==> e.instant == now + hostOffsetMinutes * 60000 - 4 * 3600000
    ensures e.zone == "EST" ==> e.instant == now + hostOffsetMinutes * 60000 - 5 * 3600000
  {
    var dst := IsDst(now, startAt, endAt);
    EasternTime(ShiftedInstant(now, hostOffsetMinutes, dst), ZoneName(dst))
  }

  /** What the host's calendar says about the current year: the weekday of
      March 1st and of November 1st, and the local-midnight instant of each
      day of March and of November (day `d` at index `d - 1`). */
  datatype HostYear = HostYear(
    marchFirstWeekday: int, novemberFirstWeekday: int,
    marchMidnight: seq<int>, novemberMidnight: seq<int>)
  {
    predicate Valid() {
      0 <= marchFirstWeekday < 7 && 0 <= novemberFirstWeekday < 7 &&
      |marchMidnight| == 31 && |novemberMidnight| == 30
    }
  }

  /** Reference: `now` lies from local midnight of the second Sunday of March
      up to (not including) local midnight of the first Sunday of November. */
  ghost predicate InReferenceDaylight(now: int, y: HostYear)
    requires y.Valid()
  {
    exists s, f :: 1 <= s <= 31 && 1 <= f <= 30 &&
      IsNthSunday(y.marchFirstWeekday, s, 2) && IsNthSunday(y.novemberFirstWeekday, f, 1) &&
      y.marchMidnight[s - 1] <= now < y.novemberMidnight[f - 1]
  }

  /** The clock rule with the days the page's comment names: daylight time
      exactly on the reference range. */
  function EasternOf(now: int, hostOffsetMinutes: int, y: HostYear): (e: EasternTime)
    requires y.Valid()
    ensures e.zone == "EDT" <==> InReferenceDaylight(now, y)
    ensures e.zone == "EST" <==> !InReferenceDaylight(now, y)
  {
    var s := SecondSundayOfMarch(y.marchFirstWeekday);
    var f := FirstSundayOfNovember(y.novemberFirstWeekday);
    ReferenceDaylightAt(now, y, s, f);
    Eastern(now, hostOffsetMinutes, y.marchMidnight[s - 1], y.novemberMidnight[f - 1])
  }

  /** With the two reference Sundays in hand, the reference range is the
      range between their midnights. */
  lemma ReferenceDaylightAt(now: int, y: HostYear, s: int, f: int)
    requires y.Valid()
    requires 1 <= s <= 31 && 1 <= f <= 30
    requires IsNthSunday(y.marchFirstWeekday, s, 2) && IsNthSunday(y.novemberFirstWeekday, f, 1)
    ensures InReferenceDaylight(now, y) <==> y.marchMidnight[s - 1] <= now < y.novemberMidnight[f - 1]
  {
    if InReferenceDaylight(now, y) {
      var s', f' :| 1 <= s' <= 31 && 1 <= f' <= 30 &&
        IsNthSunday(y.marchFirstWeekday, s', 2) && IsNthSunday(y.novemberFirstWeekday, f', 1) &&
        y.marchMidnight[s' - 1] <= now < y.novemberMidnight[f' - 1];
      NthSundayUnique(y.marchFirstWeekday, s, s', 2);
      NthSundayUnique(y.novemberFirstWeekday, f, f', 1);
    }
  }

  /** The clock rule with the days the page computes: daylight time from
      local midnight of `DstStartDay` in March up to local midnight of
      `DstEndDay` in November, with the zone always matching the offset. */
  function EasternAsWritten(now: int, hostOffsetMinutes: int, y: HostYear): (e: EasternTime)
    requires y.Valid()
    ensures e.zone == "EDT" <==>
              y.marchMidnight[DstStartDay(y.marchFirstWeekday) - 1] <= now &&
              now < y.novemberMidnight[DstEndDay(y.novemberFirstWeekday) - 1]
    ensures e.zone == "EDT" || e.zone == "EST"
    ensures e.zone == "EDT" ==> e.instant == now + hostOffsetMinutes * 60000 - 4 * 3600000
    ensures e.zone == "EST" ==> e.instant == now + hostOffsetMinutes * 60000 - 5 * 3600000
  {
    Eastern(now, hostOffsetMinutes,
      y.marchMidnight[DstStartDay(y.marchFirstWeekday) - 1],
      y.novemberMidnight[DstEndDay(y.novemberFirstWeekday) - 1])
  }

  /** In a year whose March 1st and November 1st are not Sundays, the page's
      clock agrees with the reference rule at every instant. */
  lemma AsWrittenAgreesOffSundays(now: int, hostOffsetMinutes: int, y: HostYear)
    requires y.Valid()
    requires y.marchFirstWeekday != 0 && y.novemberFirstWeekday != 0
    ensures EasternAsWritten(now, hostOffsetMinutes, y) == EasternOf(now, hostOffsetMinutes, y)
  {
    DstDaysOneWeekLate(y.marchFirstWeekday, y.novemberFirstWeekday);
  }

  /** The assumptions about a year like 2026: March 1st and November 1st are
      Sundays, and the midnights of March 8th, March 15th, November 1st and
      November 8th come in that order. */
  predicate SundayFirstsYear(y: HostYear) {
    y.Valid() && y.marchFirstWeekday == 0 && y.novemberFirstWeekday == 0 &&
    y.marchMidnight[7] < y.marchMidnight[14] &&
    y.marchMidnight[14] <= y.novemberMidnight[0] < y.novemberMidnight[7]
  }

  /** In such a year the page still shows EST at local midnight of March 8th. */
  lemma AsWrittenLateInMarch(hostOffsetMinutes: int, y: HostYear)
    requires SundayFirstsYear(y)
    ensures EasternAsWritten(y.marchMidnight[7], hostOffsetMinutes, y).zone == "EST"
  {
    assert DstStartDay(0) == 15 && DstEndDay(0) == 8;
  }

  /** In such a year the reference rule is in EDT at local midnight of
      March 8th. */
  lemma ReferenceInMarch(hostOffsetMinutes: int, y: HostYear)
    requires SundayFirstsYear(y)
    ensures EasternOf(y.marchMidnight[7], hostOffsetMinutes, y).zone == "EDT"
  {
    ReferenceDaylightAt(y.marchMidnight[7], y, 8, 1);
  }

  /** In such a year the page still shows EDT at local midnight of
      November 1st. */
  lemma AsWrittenLateInNovember(hostOffsetMinutes: int, y: HostYear)
    requires SundayFirstsYear(y)
    ensures EasternAsWritten(y.novemberMidnight[0], hostOffsetMinutes, y).zone == "EDT"
  {
    assert DstStartDay(0) == 15 && DstEndDay(0) == 8;
  }

  /** In such a year the reference rule is back in EST at local midnight of
      November 1st. */
  lemma ReferenceInNovember(hostOffsetMinutes: int, y: HostYear)
    requires SundayFirstsYear(y)
    ensures EasternOf(y.novemberMidnight[0], hostOffsetMinutes, y).zone == "EST"
  {
    ReferenceDaylightAt(y.novemberMidnight[0], y, 8, 1);
  }

  /** In a year like 2026, whose March 1st and November 1st are Sundays, at
      local midnight of March 8th the page still shows EST where the
      reference rule is in EDT, and at local midnight of November 1st the
      page still shows EDT where the reference rule is back in EST. */
  lemma AsWrittenWrongOnSundayFirsts(hostOffsetMinutes: int, y: HostYear)
    requires SundayFirstsYear(y)
    ensures EasternAsWritten(y.marchMidnight[7], hostOffsetMinutes, y).zone == "EST"
    ensures EasternOf(y.marchMidnight[7], hostOffsetMinutes, y).zone == "EDT"
    ensures EasternAsWritten(y.novemberMidnight[0], hostOffsetMinutes, y).zone == "EDT"
    ensures EasternOf(y.novemberMidnight[0], hostOffsetMinutes, y).zone == "EST"
  {
    AsWrittenLateInMarch(hostOffsetMinutes, y);
    ReferenceInMarch(hostOffsetMinutes, y);
    AsWrittenLateInNovember(hostOffsetMinutes, y);
    ReferenceInNovember(hostOffsetMinutes, y);
  }

  /** An hour on a 12-hour dial with its half of the day. */
  datatype Clock12 = Clock12(hour: int, pm: bool)

  /** The 12-hour reading of a 24-hour hour: the afternoon starts at 12, and
      midnight and noon both read 12. */
  function To12Hour(h: int): (c: Clock12)
    requires 0 <= h < 24
    ensures 1 <= c.hour <= 12
    ensures c.pm <==> h >= 12
    ensures h == 0 ==> c.hour == 12
    ensures 1 <= h <= 12 ==> c.hour == h
    ensures 13 <= h ==> c.hour == h - 12
  {
    var h12 := h % 12;
    Clock12(if h12 != 0 then h12 else 12, h >= 12)
  }

  /** Back from the dial to the 24-hour hour. */
  function To24Hour(c: Clock12): int {
    if c.pm then (if c.hour == 12 then 12 else c.hour + 12)
    else (if c.hour == 12 then 0 else c.hour)
  }

  /** The 12-hour reading loses nothing. */
  lemma To12HourRoundTrip(h: int)
    requires 0 <= h < 24
    ensures To24Hour(To12Hour(h)) == h
  {
  }

  /** The broken-down local reading of an instant, as the host's getters
      report it: weekday 0..6 from Sunday, month 0..11 from January. */
  datatype LocalFields = LocalFields(
    weekday: int, month: int, date: int, year: int,
    hours: int, minutes: int, seconds: int)
  {
    predicate Valid() {
      0 <= weekday < 7 && 0 <= month < 12 && 1 <= date <= 31 &&
      0 <= hours < 24 && 0 <= minutes < 60 && 0 <= seconds < 60
    }
  }

  const DayNames: seq<string> := ["Sun", "Mon", "Tue", "Wed", "Thu", "Fri", "Sat"]
  const MonthNames: seq<string> :=
    ["Jan", "Feb", "Mar", "Apr", "May", "Jun", "Jul", "Aug", "Sep", "Oct", "Nov", "Dec"]

  /** A whole number as `toString` writes it, with a minus sign when negative. */
  function IntToString(i: int): (s: string)
    ensures |s| >= 1
    ensures s[0] == '-' <==> i < 0
    ensures var k := if i < 0 then 1 else 0;
            |s| > k && AllDigits(s[k..]) && Parse(s[k..]) == (if i < 0 then -i else i)
    ensures var k := if i < 0 then 1 else 0;
            |s| > k + 1 ==> s[k] != '0'
  {
    if i < 0 then
      var d := NatToString(-i);
      ParseNatToString(-i);
      assert ("-" + d)[1..] == d;
      "-" + d
    else
      ParseNatToString(i);
      assert NatToString(i)[0..] == NatToString(i);
      NatToString(i)
  }

  /** Two whole numbers are written the same exactly when they are equal. */
  lemma IntToStringInjective(a: int, b: int)
    ensures IntToString(a) == IntToString(b) <==> a == b
  {
  }

  /** The time of day: hour on the 12-hour dial without padding, then minutes
      and seconds padded to two digits, then AM or PM. */
  function ClockText(hours: int, minutes: nat, seconds: nat): (s: string)
    requires 0 <= hours < 24 && minutes < 60 && seconds < 60
    ensures |s| >= 10
    ensures s[|s| - 2..] == (if hours >= 12 then "PM" else "AM")
    ensures s[|s| - 9] == ':' && s[|s| - 6] == ':' && s[|s| - 3] == ' '
    ensures s[0] != '0'
  {
    var c := To12Hour(hours);
    var hs := NatToString(c.hour);
    var ms := Pad2(minutes);
    var ss := Pad2(seconds);
    var half := if c.pm then "PM" else "AM";
    Pad2Width(minutes);
    Pad2Width(seconds);
    HourText(c.hour);
    ClockTextLayout(hs, ms, ss, half);
    hs + ":" + ms + ":" + ss + " " + half
  }

  /** An hour on the dial is written with one or two digits, never starting
      with a zero. */
  lemma HourText(h: nat)
    requires 1 <= h <= 12
    ensures 1 <= |NatToString(h)| <= 2 && NatToString(h)[0] != '0'
  {
    if h >= 10 {
      NatToStringTwoDigits(h);
    } else {
      assert NatToString(h) == [DigitChar(h)];
    }
  }

  /** Reading a time of day back from its text, when it has that shape. */
  function ReadClockText(s: string): Option<(int, int, int)> {
    if |s| < 10 then None
    else
      var h := s[..|s| - 9];
      var m := s[|s| - 8..|s| - 6];
      var sec := s[|s| - 5..|s| - 3];
      var half := s[|s| - 2..];
      if s[|s| - 9] != ':' || s[|s| - 6] != ':' || s[|s| - 3] != ' ' then None
      else if !AllDigits(h) || !AllDigits(m) || !AllDigits(sec) || (half != "AM" && half != "PM") then None
      else Some((To24Hour(Clock12(Parse(h), half == "PM")), Parse(m), Parse(sec)))
  }

  /** Where the parts of a time of day sit in its text. */
  lemma ClockTextLayout(hs: string, ms: string, ss: string, half: string)
    requires |ms| == 2 && |ss| == 2 && |half| == 2
    ensures var s := hs + ":" + ms + ":" + ss + " " + half;
            |s| == |hs| + 9 &&
            s[..|s| - 9] == hs && s[|s| - 8..|s| - 6] == ms &&
            s[|s| - 5..|s| - 3] == ss && s[|s| - 2..] == half &&
            s[|s| - 9] == ':' && s[|s| - 6] == ':' && s[|s| - 3] == ' ' &&
            (|hs| > 0 ==> s[0] == hs[0])
  {
  }

  /** Reading a text laid out as a time of day gives back its parts. */
  lemma ReadClockTextParts(hs: string, ms: string, ss: string, pm: bool)
    requires AllDigits(hs) && AllDigits(ms) && AllDigits(ss)
    requires |hs| >= 1 && |ms| == 2 && |ss| == 2
    ensures var half := if pm then "PM" else "AM";
            ReadClockText(hs + ":" + ms + ":" + ss + " " + half) ==
              Some((To24Hour(Clock12(Parse(hs), pm)), Parse(ms), Parse(ss)))
  {
    var half := if pm then "PM" else "AM";
    var s := hs + ":" + ms + ":" + ss + " " + half;
    ClockTextLayout(hs, ms, ss, half);
    assert |s| >= 10;
    assert (half == "PM") == pm;
    assert half == "AM" || half == "PM";
  }

  /** The time of day is written so that it can be read back: distinct times
      give distinct texts. */
  lemma ClockTextRoundTrip(hours: int, minutes: nat, seconds: nat)
    requires 0 <= hours < 24 && minutes < 60 && seconds < 60
    ensures ReadClockText(ClockText(hours, minutes, seconds)) == Some((hours, minutes, seconds))
  {
    var c := To12Hour(hours);
    Pad2Width(minutes);
    Pad2Width(seconds);
    ReadClockTextParts(NatToString(c.hour), Pad2(minutes), Pad2(seconds), c.pm);
    ParseNatToString(c.hour);
    Pad2RoundTrip(minutes);
    Pad2RoundTrip(seconds);
    To12HourRoundTrip(hours);
  }

  /** Numbers below 100 are padded to exactly two characters. */
  lemma Pad2Width(n: nat)
    requires n < 100
    ensures |Pad2(n)| == 2
  {
    if n >= 10 {
      NatToStringTwoDigits(n);
    }
  }

  /** Numbers from 10 to 99 have two-digit numerals. */
  lemma NatToStringTwoDigits(n: nat)
    requires 10 <= n < 100
    ensures |NatToString(n)| == 2
  {
    assert NatToString(n) == NatToString(n / 10) + [DigitChar(n % 10)];
  }

  /** The whole clock line:
      `<weekday>, <month> <date>, <year>, <time of day> <EST|EDT>`. It starts
      with the weekday's name and ends with the zone's name. */
  function FormatEastern(t: LocalFields, dst: bool): (s: string)
    requires t.Valid()
    ensures |s| >= 4
    ensures s[..3] == DayNames[t.weekday]
    ensures s[|s| - 4..] == " " + ZoneName(dst)
  {
    var head := DayNames[t.weekday];
    var tail := " " + ZoneName(dst);
    var middle := ", " + MonthNames[t.month] + " " + NatToString(t.date) + ", " +
                  IntToString(t.year) + ", " + ClockText(t.hours, t.minutes, t.seconds);
    DayNameLength(t.weekday);
    ConcatEnds(head, middle, tail);
    head + middle + tail
  }

  /** The clock line of one reading, as the page writes it: the reading of
      the page's own rule at `now`, written out from the host's broken-down
      fields `t` of the shifted instant. The zone printed at the end is the
      zone whose offset the rule applied, so it is EDT exactly from local
      midnight of `DstStartDay` in March up to local midnight of
      `DstEndDay` in November. */
  function ClockLine(now: int, hostOffsetMinutes: int, y: HostYear, t: LocalFields): (s: string)
    requires y.Valid() && t.Valid()
    ensures |s| >= 4
    ensures s[..3] == DayNames[t.weekday]
    ensures s[|s| - 4..] == " " + EasternAsWritten(now, hostOffsetMinutes, y).zone
    ensures s[|s| - 4..] ==
              if y.marchMidnight[DstStartDay(y.marchFirstWeekday) - 1] <= now &&
                 now < y.novemberMidnight[DstEndDay(y.novemberFirstWeekday) - 1]
              then " EDT" else " EST"
  {
    var e := EasternAsWritten(now, hostOffsetMinutes, y);
    var dst := e.zone == "EDT";
    assert ZoneName(dst) == e.zone;
    FormatEastern(t, dst)
  }

  /** The clock line with the corrected rule: it ends in EDT exactly on the
      reference daylight range. */
  function ClockLineIntended(now: int, hostOffsetMinutes: int, y: HostYear, t: LocalFields): (s: string)
    requires y.Valid() && t.Valid()
    ensures |s| >= 4
    ensures s[..3] == DayNames[t.weekday]
    ensures s[|s| - 4..] == " " + EasternOf(now, hostOffsetMinutes, y).zone
    ensures s[|s| - 4..] == if InReferenceDaylight(now, y) then " EDT" else " EST"
  {
    var e := EasternOf(now, hostOffsetMinutes, y);
    var dst := e.zone == "EDT";
    assert ZoneName(dst) == e.zone;
    FormatEastern(t, dst)
  }

  /** When neither March 1st nor November 1st is a Sunday, the page's clock
      line is the intended one at every instant. */
  lemma ClockLinesAgreeOffSundays(now: int, hostOffsetMinutes: int, y: HostYear, t: LocalFields)
    requires y.Valid() && t.Valid()
    requires y.marchFirstWeekday != 0 && y.novemberFirstWeekday != 0
    ensures ClockLine(now, hostOffsetMinutes, y, t) == ClockLineIntended(now, hostOffsetMinutes, y, t)
  {
    AsWrittenAgreesOffSundays(now, hostOffsetMinutes, y);
  }

  /** In a year like 2026, at local midnight of March 8th the page's clock
      line ends in EST where the intended one ends in EDT. */
  lemma ClockLineLateInMarch(hostOffsetMinutes: int, y: HostYear, t: LocalFields)
    requires SundayFirstsYear(y) && t.Valid()
    ensures var s := ClockLine(y.marchMidnight[7], hostOffsetMinutes, y, t);
            s[|s| - 4..] == " EST"
    ensures var s := ClockLineIntended(y.marchMidnight[7], hostOffsetMinutes, y, t);
            s[|s| - 4..] == " EDT"
  {
    AsWrittenLateInMarch(hostOffsetMinutes, y);
    ReferenceInMarch(hostOffsetMinutes, y);
  }

  /** Every weekday name has three letters. */
  lemma DayNameLength(wd: int)
    requires 0 <= wd < 7
    ensures |DayNames[wd]| == 3
  {
  }

  lemma ConcatEnds(head: string, middle: string, tail: string)
    ensures (head + middle + tail)[..|head|] == head
    ensures (head + middle + tail)[|head| + |middle|..] == tail
  {
  }
}

=== FILE: options.dfy ===
/** An optional value, standing in for the source's `null` or an absent
    side effect. */
module Options {
  datatype Option<T> = None | Some(value: T)
}

=== FILE: progress.dfy ===
/** The progress bar: how much of the window has elapsed, as a percentage.
    The ratio is kept as an exact real; the browser's floating point is not
    modelled. */
module Progress {
  import opened WindowState
  import Countdown

  /** `Math.min(Math.max(x, lo), hi)`: the nearest value to `x` in `[lo, hi]`. */
  function Clamp(x: real, lo: real, hi: real): (r: real)
    requires lo <= hi
    ensures lo <= r <= hi
    ensures lo <= x <= hi ==> r == x
    ensures x < lo ==> r == lo
    ensures hi < x ==> r == hi
  {
    var low := if x > lo then x else lo;
    if low < hi then low else hi
  }

  /** Clamping keeps the order of its inputs. */
  lemma ClampMonotone(x: real, y: real, lo: real, hi: real)
    requires lo <= hi && x <= y
    ensures Clamp(x, lo, hi) <= Clamp(y, lo, hi)
  {
  }

  /** The elapsed part of the window in percent, clamped to `[0, 100]`.
      It is 0 up to the opening instant and 100 from the closing instant on. */
  function Percentage(now: int, w: Window): (p: real)
    requires w.Valid()
    ensures 0.0 <= p <= 100.0
    ensures now <= w.openAt ==> p == 0.0
    ensures now >= w.closeAt ==> p == 100.0
  {
    var total := w.closeAt - w.openAt;
    var elapsed := now - w.openAt;
    var ratio := (elapsed as real / total as real) * 100.0;
    RatioBounds(elapsed, total);
    Clamp(ratio, 0.0, 100.0)
  }

  /** The unclamped ratio is below 0 before the window and above 100 after it. */
  lemma RatioBounds(elapsed: int, total: int)
    requires total > 0
    ensures elapsed <= 0 ==> (elapsed as real / total as real) * 100.0 <= 0.0
    ensures elapsed >= total ==> (elapsed as real / total as real) * 100.0 >= 100.0
    ensures 0 <= elapsed <= total ==> 0.0 <= (elapsed as real / total as real) * 100.0 <= 100.0
  {
    var t := total as real;
    var e := elapsed as real;
    assert (e / t) * t == e;
    if elapsed <= 0 {
      assert e / t <= 0.0;
    }
    if elapsed >= total {
      assert e / t >= 1.0;
    }
    if 0 <= elapsed <= total {
      assert 0.0 <= e / t <= 1.0;
    }
  }

  /** While the window is open no clamping happens: the percentage times the
      window's length is exactly 100 times the time elapsed since opening. */
  lemma PercentageWhileOpen(now: int, w: Window)
    requires w.Valid()
    requires Resolve(now, w) == Open
    ensures Percentage(now, w) * (w.closeAt - w.openAt) as real == 100.0 * (now - w.openAt) as real
  {
    var t := (w.closeAt - w.openAt) as real;
    var e := (now - w.openAt) as real;
    RatioBounds(now - w.openAt, w.closeAt - w.openAt);
    assert Percentage(now, w) == (e / t) * 100.0;
    assert (e / t) * t == e;
  }

  /** The bar never moves backwards as time passes. */
  lemma PercentageMonotone(a: int, b: int, w: Window)
    requires w.Valid()
    requires a <= b
    ensures Percentage(a, w) <= Percentage(b, w)
  {
    var t := (w.closeAt - w.openAt) as real;
    var ea := (a - w.openAt) as real;
    var eb := (b - w.openAt) as real;
    assert ea <= eb;
    assert ea / t <= eb / t by {
      assert (eb / t) - (ea / t) == (eb - ea) / t;
    }
    ClampMonotone((ea / t) * 100.0, (eb / t) * 100.0, 0.0, 100.0);
  }

  /** Two days into the seven-day migration window, two sevenths of it have
      elapsed. */
  lemma TwoDaysIn()
    ensures Resolve(OpenDate + 2 * Countdown.MsPerDay, MigrationWindow) == Open
    ensures Percentage(OpenDate + 2 * Countdown.MsPerDay, MigrationWindow) == 200.0 / 7.0
  {
    PercentageWhileOpen(OpenDate + 2 * Countdown.MsPerDay, MigrationWindow);
  }
}

=== FILE: statedisplay.dfy ===
/** What the widget shows for each state: the pill's text and class, which
    sections are visible, and the description line under the countdown. */
module StateDisplay {
  import opened WindowState

  /** The values a state transition writes into the page. `openClass` and
      `closedClass` say whether the pill carries the 'open' or the 'closed'
      class after both were removed and the state's own one was added. */
  datatype StateView = StateView(
    pillText: string,
    progressShown: bool,
    ctaShown: bool,
    openClass: bool,
    closedClass: bool)

  /** The state display update: the pill text names the state, the progress bar
      and the call to action are shown only while the window is open, and
      the pill's class marks the open and closed states (never both). */
  function ViewOf(s: State): (v: StateView)
    ensures s == PreOpen ==> v.pillText == "OPENS IN"
    ensures s == Open ==> v.pillText == "OPEN NOW"
    ensures s == Closed ==> v.pillText == "CLOSED"
    ensures v.progressShown <==> s == Open
    ensures v.ctaShown <==> s == Open
    ensures v.openClass <==> s == Open
    ensures v.closedClass <==> s == Closed
    ensures !(v.openClass && v.closedClass)
  {
    match s
    case PreOpen => StateView("OPENS IN", false, false, false, false)
    case Open => StateView("OPEN NOW", true, true, true, false)
    case Closed => StateView("CLOSED", false, false, false, true)
  }

  /** The pill text alone tells which state is displayed. */
  lemma PillTextIdentifiesState(a: State, b: State)
    ensures ViewOf(a).pillText == ViewOf(b).pillText <==> a == b
  {
    if a != b {
      assert ViewOf(a).pillText[|ViewOf(a).pillText| - 1] != ViewOf(b).pillText[|ViewOf(b).pillText| - 1];
    }
  }

  /** The description written on every tick. Before and during the window it
      names the instant being counted down to, afterwards a fixed message. */
  function Description(s: State): (d: string)
    ensures s != Closed <==> |d| >= 2 && d[|d| - 2..] == "ET"
    ensures s == PreOpen ==> |d| >= 5 && d[..5] == "Opens"
    ensures s == Open ==> |d| >= 6 && d[..6] == "Closes"
  {
    match s
    case PreOpen => "Opens Sep 23, 2025 • 12:00 PM ET"
    case Open => "Closes Sep 30, 2025 • 12:00 PM ET"
    case Closed => "Migration window has closed"
  }

  /** The description alone tells which state is displayed. */
  lemma DescriptionIdentifiesState(a: State, b: State)
    ensures Description(a) == Description(b) <==> a == b
  {
    if a != b {
      assert |Description(a)| != |Description(b)|;
    }
  }
}

=== FILE: ticker.dfy ===
/** The once-a-second countdown tick as a step function over an immutable
    record: the state last displayed and the text last written to each
    countdown card. */
module Ticker {
  import opened Options
  import opened WindowState
  import opened Countdown
  import opened Decimal
  import opened StateDisplay
  import Progress

  /** The four countdown cards. */
  datatype Unit = Days | Hours | Minutes | Seconds

  /** The field of a countdown that a card shows. */
  function FieldOf(f: Fields, u: Unit): nat {
    match u
    case Days => f.days
    case Hours => f.hours
    case Minutes => f.minutes
    case Seconds => f.seconds
  }

  /** The state the tick carries from one second to the next: the state last
      displayed, and for each card the text last written to it. A card that
      has never been written is absent from the map. */
  datatype TickState = TickState(current: State, previous: map<Unit, string>)

  /** Before the first tick nothing has been written and the displayed state
      is taken to be PreOpen. */
  const Initial: TickState := TickState(PreOpen, map[])

  /** The effect of writing one card: the updated record of written texts,
      and whether the card was actually rewritten (with its flip animation). */
  datatype CardUpdate<T> = CardUpdate(previous: map<Unit, T>, fired: bool)

  /** Writing `text` to a card, as the source's `updateTimeDisplay` does with
      the padded value: the card is rewritten only if the text differs from
      the one written last; afterwards the record holds that text for this
      card and is unchanged for every other card. The card logic only
      compares texts, so it is written for any text type `T`; the page uses
      it with strings only, through `Tick`. */
  function WriteCard<T(==)>(previous: map<Unit, T>, unit: Unit, text: T): (c: CardUpdate<T>)
    ensures unit in c.previous && c.previous[unit] == text
    ensures forall v :: v != unit ==> (v in c.previous <==> v in previous)
    ensures forall v :: v != unit && v in previous ==> c.previous[v] == previous[v]
    ensures c.fired <==> unit !in previous || previous[unit] != text
    ensures !c.fired ==> c.previous == previous
  {
    if unit !in previous || previous[unit] != text then
      CardUpdate(previous[unit := text], true)
    else
      CardUpdate(previous, false)
  }

  /** When the card last showed the padded form of `last`, writing the padded
      form of `value` rewrites it exactly when the two numbers differ. */
  lemma WriteCardFiresIffChanged(previous: map<Unit, string>, unit: Unit, last: nat, value: nat)
    requires unit in previous && previous[unit] == Pad2(last)
    ensures WriteCard(previous, unit, Pad2(value)).fired <==> last != value
  {
    Pad2Injective(last, value);
  }

  /** The text each card should show for a countdown. */
  function CardTexts(f: Fields): (t: map<Unit, string>)
    ensures forall u :: u in CardOrder ==> u in t && t[u] == Pad2(FieldOf(f, u))
  {
    map u | u in CardOrder :: Pad2(FieldOf(f, u))
  }

  /** Everything one tick writes into the page. `view` is the state display
      update, present only on a state change; `progress` is the percentage,
      present only while open; `written` maps each card actually rewritten
      to its new text. */
  datatype TickOutput = TickOutput(
    next: TickState,
    view: Option<StateView>,
    description: string,
    progress: Option<real>,
    written: map<Unit, string>)

  /** The card texts of a tick and the cards that were rewritten. */
  datatype CardsOutcome<T> = CardsOutcome(previous: map<Unit, T>, written: map<Unit, T>)

  /** The cards in the order the source writes them. */
  const CardOrder: seq<Unit> := [Days, Hours, Minutes, Seconds]

  predicate Distinct(units: seq<Unit>) {
    forall i, j :: 0 <= i < j < |units| ==> units[i] != units[j]
  }

  lemma DistinctTail(units: seq<Unit>)
    requires |units| > 0 && Distinct(units)
    ensures Distinct(units[1..])
    ensures units[0] !in units[1..]
    ensures forall u :: u in units[1..] ==> u in units
  {
    var rest := units[1..];
    forall i, j | 0 <= i < j < |rest|
      ensures rest[i] != rest[j]
    {
      assert rest[i] == units[i + 1] && rest[j] == units[j + 1];
    }
  }

  lemma CardOrderDistinct()
    ensures Distinct(CardOrder)
  {
  }

  /** Writing the cards `units` one after the other: each listed card ends
      up holding its text, every other card keeps its record, and a listed
      card is rewritten exactly when its text changed. */
  function WriteCards<T(==)>(previous: map<Unit, T>, units: seq<Unit>, texts: map<Unit, T>): (o: CardsOutcome<T>)
    requires Distinct(units)
    requires forall u :: u in units ==> u in texts
    ensures forall u :: u in units ==> u in o.previous && o.previous[u] == texts[u]
    ensures forall u :: u !in units ==> (u in o.previous <==> u in previous)
    ensures forall u :: u !in units && u in previous ==> o.previous[u] == previous[u]
    ensures forall u :: u in o.written <==> u in units && (u !in previous || previous[u] != texts[u])
    ensures forall u :: u in o.written ==> o.written[u] == texts[u]
    decreases |units|
  {
    if |units| == 0 then CardsOutcome(previous, map[])
    else
      var u := units[0];
      DistinctTail(units);
      var c := WriteCard(previous, u, texts[u]);
      var rest := WriteCards(c.previous, units[1..], texts);
      CardsOutcome(rest.previous, if c.fired then rest.written[u := texts[u]] else rest.written)
  }

  /** Writing the same texts a second time leaves the record as it was. */
  lemma WriteCardsRecordStable<T>(previous: map<Unit, T>, units: seq<Unit>, texts: map<Unit, T>)
    requires Distinct(units)
    requires forall u :: u in units ==> u in texts
    ensures var o := WriteCards(previous, units, texts);
            WriteCards(o.previous, units, texts).previous == o.previous
  {
    var o := WriteCards(previous, units, texts);
    var o' := WriteCards(o.previous, units, texts);
    MapsEqual(o'.previous, o.previous);
  }

  lemma MapsEqual<K, V>(a: map<K, V>, b: map<K, V>)
    requires forall k :: k in a <==> k in b
    requires forall k :: k in a ==> a[k] == b[k]
    ensures a == b
  {
  }

  /** Writing the same texts a second time rewrites no card. */
  lemma WriteCardsNoRewrite<T>(previous: map<Unit, T>, units: seq<Unit>, texts: map<Unit, T>)
    requires Distinct(units)
    requires forall u :: u in units ==> u in texts
    ensures var o := WriteCards(previous, units, texts);
            WriteCards(o.previous, units, texts).written == map[]
  {
  }

  /** One countdown tick at instant `now`. The displayed state becomes the
      state of `now`, and the state display is updated only when that differs
      from the state displayed before. The progress bar is computed only
      while open. Each card ends up holding the padded text of its field of
      the countdown and is rewritten only when that text changed. */
  function Tick(ts: TickState, now: int, w: Window): (o: TickOutput)
    requires w.Valid()
    ensures o.next.current == Resolve(now, w)
    ensures o.view.Some? <==> ts.current != Resolve(now, w)
    ensures o.view.Some? ==> o.view.value == ViewOf(Resolve(now, w))
    ensures o.description == Description(Resolve(now, w))
    ensures o.progress.Some? <==> Resolve(now, w) == Open
    ensures o.progress.Some? ==> o.progress.value == Progress.Percentage(now, w)
    ensures o.progress.Some? ==> 0.0 <= o.progress.value <= 100.0
    ensures forall u :: u in CardOrder ==>
              u in o.next.previous && o.next.previous[u] == Pad2(FieldOf(CountdownAt(now, w), u))
    ensures forall u :: u in o.written <==>
              u in CardOrder && (u !in ts.previous || ts.previous[u] != Pad2(FieldOf(CountdownAt(now, w), u)))
    ensures forall u :: u in o.written ==> o.written[u] == Pad2(FieldOf(CountdownAt(now, w), u))
  {
    var state := Resolve(now, w);
    var view := if ts.current != state then Some(ViewOf(state)) else None;
    var progress := if state == Open then Some(Progress.Percentage(now, w)) else None;
    var f := CountdownAt(now, w);
    CardOrderDistinct();
    var cards := WriteCards(ts.previous, CardOrder, CardTexts(f));
    TickOutput(TickState(state, cards.previous), view, Description(state), progress, cards.written)
  }

  /** Writing the cards twice with the same texts: the second pass rewrites
      nothing and leaves the record as the first pass left it. */
  lemma CardsSettle(previous: map<Unit, string>, texts: map<Unit, string>)
    requires forall u :: u in CardOrder ==> u in texts
    ensures var o := WriteCards(previous, CardOrder, texts);
            WriteCards(o.previous, CardOrder, texts) == CardsOutcome(o.previous, map[])
  {
    CardOrderDistinct();
    WriteCardsRecordStable(previous, CardOrder, texts);
    WriteCardsNoRewrite(previous, CardOrder, texts);
  }

  /** A second tick at the same instant writes nothing: no state display
      update, no card rewritten, and the carried state is unchanged. */
  lemma TickIdempotent(ts: TickState, now: int, w: Window)
    requires w.Valid()
    ensures var o := Tick(ts, now, w);
            var o' := Tick(o.next, now, w);
            o'.view == None && o'.written == map[] && o'.next == o.next
  {
    CardsSettle(ts.previous, CardTexts(CountdownAt(now, w)));
  }

  /** The first tick rewrites every card, and updates the state display
      exactly when the window has already opened. */
  lemma FirstTick(now: int, w: Window)
    requires w.Valid()
    ensures forall u :: u in CardOrder ==> u in Tick(Initial, now, w).written
    ensures Tick(Initial, now, w).view.Some? <==> now >= w.openAt
  {
  }

  /** A run of ticks: the final carried state and how many state display
      updates happened along the way. */
  datatype RunResult = RunResult(last: TickState, transitions: nat)

  /** Ticks at the instants `nows`, one after the other: the page's first
      call from `init`, the immediate call from `startTimer`, and one call
      per second after that. Each tick updates the state display at most
      once. */
  function Run(ts: TickState, nows: seq<int>, w: Window): (r: RunResult)
    requires w.Valid()
    ensures r.transitions <= |nows|
    decreases |nows|
  {
    if |nows| == 0 then RunResult(ts, 0)
    else
      var o := Tick(ts, nows[0], w);
      var rest := Run(o.next, nows[1..], w);
      RunResult(rest.last, rest.transitions + if o.view.Some? then 1 else 0)
  }

  /** Whatever the order of the instants, a run ends carrying the state of
      its last instant; an empty run carries what it started with. */
  lemma {:induction false} RunEndsInLastState(ts: TickState, nows: seq<int>, w: Window)
    requires w.Valid()
    ensures |nows| == 0 ==> Run(ts, nows, w).last == ts
    ensures |nows| > 0 ==> Run(ts, nows, w).last.current == Resolve(nows[|nows| - 1], w)
    decreases |nows|
  {
    if |nows| > 0 {
      var o := Tick(ts, nows[0], w);
      var rest := nows[1..];
      assert Run(ts, nows, w).last == Run(o.next, rest, w).last;
      RunEndsInLastState(o.next, rest, w);
      if |rest| > 0 {
        assert rest[|rest| - 1] == nows[|nows| - 1];
      }
    }
  }

  predicate Ascending(nows: seq<int>) {
    forall i, j :: 0 <= i <= j < |nows| ==> nows[i] <= nows[j]
  }

  lemma AscendingTail(nows: seq<int>)
    requires |nows| > 0 && Ascending(nows)
    ensures Ascending(nows[1..])
  {
    var rest := nows[1..];
    forall i, j | 0 <= i <= j < |rest|
      ensures rest[i] <= rest[j]
    {
      assert rest[i] == nows[i + 1] && rest[j] == nows[j + 1];
    }
  }

  /** Along a run with non-decreasing clock readings the state display is
      updated at most as many times as the state advances in rank. */
  lemma {:induction false} RunTransitionsBounded(ts: TickState, nows: seq<int>, w: Window)
    requires w.Valid()
    requires Ascending(nows)
    requires |nows| > 0 ==> Rank(ts.current) <= Rank(Resolve(nows[0], w))
    ensures |nows| == 0 ==> Run(ts, nows, w).transitions == 0
    ensures |nows| > 0 ==>
              Run(ts, nows, w).transitions <= Rank(Resolve(nows[|nows| - 1], w)) - Rank(ts.current)
    ensures |nows| > 0 ==> Run(ts, nows, w).last.current == Resolve(nows[|nows| - 1], w)
    decreases |nows|
  {
    if |nows| > 0 {
      var o := Tick(ts, nows[0], w);
      var step := if o.view.Some? then 1 else 0;
      assert step <= Rank(o.next.current) - Rank(ts.current);
      var rest := nows[1..];
      var r := Run(o.next, rest, w);
      assert Run(ts, nows, w) == RunResult(r.last, r.transitions + step);
      if |rest| > 0 {
        ResolveMonotone(nows[0], rest[0], w);
        AscendingTail(nows);
        RunTransitionsBounded(o.next, rest, w);
        assert rest[|rest| - 1] == nows[|nows| - 1];
      }
    }
  }

  /** From the page's initial state, a run with non-decreasing clock readings
      updates the state display at most twice: once on opening and once on
      closing. */
  lemma RunFromInitialAtMostTwoTransitions(nows: seq<int>, w: Window)
    requires w.Valid()
    requires Ascending(nows)
    ensures Run(Initial, nows, w).transitions <= 2
  {
    RunTransitionsBounded(Initial, nows, w);
  }
}

=== FILE: window.dfy ===
/** The migration window and the classification of an instant against it.
    Instants are integer milliseconds since the Unix epoch, which is what a
    JavaScript `Date` compares and subtracts as. */
module WindowState {

  /** The three display states of the widget. */
  datatype State = PreOpen | Open | Closed

  /** A window is a pair of fixed instants; the widget is only meaningful
      when it opens strictly before it closes. */
  datatype Window = Window(openAt: int, closeAt: int) {
    predicate Valid() {
      openAt < closeAt
    }
  }

  /** 2025-09-23T16:00:00Z and 2025-09-30T16:00:00Z, in epoch milliseconds. */
  const OpenDate: int := 1758643200000
  const CloseDate: int := 1759248000000
  const MigrationWindow: Window := Window(OpenDate, CloseDate)

  /** The position of a state in the order in which time passes through them. */
  function Rank(s: State): (k: nat)
    ensures k <= 2
    ensures s == PreOpen <==> k == 0
    ensures s == Closed <==> k == 2
  {
    match s
    case PreOpen => 0
    case Open => 1
    case Closed => 2
  }

  /** The state of the window at instant `now`: before the opening instant it
      is not yet open, between the two instants (both included) it is open,
      and after the closing instant it is closed. */
  function Resolve(now: int, w: Window): (s: State)
    ensures s == PreOpen <==> now < w.openAt
    ensures s == Open <==> w.openAt <= now <= w.closeAt
    ensures s == Closed <==> w.openAt <= now && w.closeAt < now
  {
    if now < w.openAt then PreOpen
    else if now >= w.openAt && now <= w.closeAt then Open
    else Closed
  }

  /** For a valid window the final branch is exactly "after the close". */
  lemma ResolveClosedAfterClose(now: int, w: Window)
    requires w.Valid()
    ensures Resolve(now, w) == Closed <==> now > w.closeAt
  {
  }

  /** Time only moves the state forward: PreOpen, then Open, then Closed. */
  lemma ResolveMonotone(a: int, b: int, w: Window)
    requires w.Valid()
    requires a <= b
    ensures Rank(Resolve(a, w)) <= Rank(Resolve(b, w))
  {
  }

  lemma MigrationWindowValid()
    ensures MigrationWindow.Valid()
  {
  }
}
